=== FILE: README.md ===
# Network request simulator — controller model

A Dafny model of the simulation controller inside `NetworkLearningTool`
(`DDos.py`). The tool sends no network traffic. A "packet" is one log line,
one bump of the sent-packet counter with a status-bar refresh, and one row in
the history table. What the model covers:

- the input check of `start_simulation`: packet count, then the dotted address,
  then the port;
- the running guard and the start banner;
- the TCP and UDP worker loops, which poll `is_running` before every iteration
  and once more before the completion line;
- `stop_simulation`, `clear_log`, `clear_history`, `update_status` and
  `add_to_history`.

The worker thread is modelled sequentially. A stop pressed during a run is a
parameter: `Some(k)` means the stop lands once `k` iterations are done. Every
transition is a pure function on an immutable `State`:

- `running` is `is_running`;
- `sent` is the cumulative `packet_count`;
- `log` is the log text, one entry per line;
- `history` is the history table;
- `status` is the status-bar text.

Modules:

- `Wrappers`: `Option` and `Result`.
- `Text`: the Python string operations used, on ASCII text: `strip`, `split('.')`, `replace('.', '')`, `isdigit`, `str(n)` and `int(s)`. `strip()` and `int()` skip different whitespace: `int()` does not skip the separators U+001C to U+001F.
- `Validation`: the form, the accepted request, the warnings and `Validate`.
- `Messages`: every text the controller writes.
- `Controller`: the state, the three effects a run has on the UI (`Event`), the UI actions and the worker loop.
- `Runs`: what whole runs do, with and without a stop.
- `Sessions`: any sequence of user actions from the opened window.

Behaviour of the code that the model keeps as written:

- The address check only asks for a non-empty run of digits once the dots are removed, and for exactly four dot-separated pieces. `"1..2.3"`, `"1.2.3."` and `"999.256.300.1"` are all accepted.
- A run that finishes on its own never clears `is_running`. Every later Start is ignored until Stop is pressed.
- `stop_simulation` has no guard of its own: it clears the flag and logs "Simulation stopped by user" whenever it runs. In the window only the Stop button keeps it from running while idle, because the button is enabled exactly while `is_running` is set (DDos.py:245, 532-534, 553-554).
- A stop does not touch the status bar. Once a packet has been counted it reads "Running | Packets Sent: n" and keeps reading so after the stop; before any packet it still reads "Ready | Packets Sent: 0". Nothing resets the counter.
- The packet count reaches `int()` without `strip()`. `int()` skips only space and `\t` to `\r`, so a count typed with a separator such as U+001C is refused as unreadable.
- Every history row's packet column holds the requested total, not the iteration number.
- The start banner and every packet line that names its target (all but UDP Broadcast and Multicast) show the port exactly as typed (stripped), not its parsed value.
- A kind from the other protocol falls through to the default template: TCP Data, or an addressed UDP packet.

## Model

| member | source | states |
|---|---|---|
| Text.Strip | DDos.py:502-503 | `strip()` returns the unique slice that drops all leading and trailing whitespace and starts and ends with a non-space |
| Text.Trim | DDos.py:502-508 | trimming returns the unique slice that drops all leading and trailing blanks of the given class and starts and ends with a non-blank |
| Text.StripIdempotent | DDos.py:502-503 | stripping twice is stripping once |
| Text.IntTrimOfStripped | DDos.py:523 | `int()` finds nothing to skip in the already stripped port text |
| Text.Split | DDos.py:517 | `split('.')` has one more piece than there are dots; no piece holds a dot; joining the pieces with dots gives back the input |
| Text.SplitJoin | DDos.py:517 | splitting undoes joining for dot-free pieces |
| Text.RemoveAll | DDos.py:517 | `replace('.', '')` keeps exactly the non-dot characters and shortens the text by the number of dots |
| Text.RemoveAllIsConcatSplit | DDos.py:517 | `s.replace('.', '')` equals `''.join(s.split('.'))`, so the kept characters stay in their order |
| Text.NatToString | DDos.py:537 | `str(n)` is a non-empty digit string, without leading zeros, whose decimal value is `n` |
| Text.NatToStringInjective | DDos.py:438 | different numbers print differently |
| Text.ParseInt | DDos.py:508 | `int(s)` succeeds exactly on an optionally signed run of ASCII digits once space and `\t` to `\r` are trimmed, and yields its signed decimal value |
| Text.ParseIntOfNatToString | DDos.py:523 | `int()` reads back what `str()` prints, with any blanks `int()` skips before it and any after it, chosen independently |
| Text.SeparatorNotSkipped | DDos.py:503-508 | `strip()` removes a leading U+001C but `int()` does not skip it, so `int()` refuses the text |
| Validation.Validate | DDos.py:507-529 | a form is accepted iff the count reads as an integer in [1,1000], the stripped address passes the address rule and the stripped port reads as an integer in [1,65535]; an accepted request keeps the stripped address and port text and the parsed count |
| Validation.FirstFailureDecides | DDos.py:507-529 | the first failing check, in the order count, address, port, decides which of the five warnings is shown |
| Validation.AddressRule | DDos.py:517 | the address passes iff it has exactly three dots, only digits and dots, and at least one digit |
| Validation.EmptyOctetsAccepted | DDos.py:517 | three dots around three digit runs are accepted with the empty octet in any of the four places |
| Validation.EmptyOctetAccepted | DDos.py:517 | `"1..2.3"` and `"1.2.3."` are accepted: empty octets are not checked |
| Validation.LargeOctetAccepted | DDos.py:517 | any four digit runs joined by dots are accepted, however large: no octet is compared with 255 |
| Validation.LargeOctetExample | DDos.py:517 | `"999.256.300.1"` is accepted |
| Validation.MalformedAddressesRefused | DDos.py:517-519 | three octets, dots only, or a letter are refused |
| Validation.NumbersDecide | DDos.py:509-526 | once both numbers parse and the address passes, the count range is checked before the port range |
| Validation.RangeBoundaries | DDos.py:509-510 | counts 1 and 1000 and ports 1 and 65535 are accepted; counts 0 and 1001 and ports 0 and 65536 get the matching range warning |
| Validation.SeparatedCountRefused | DDos.py:508-514 | a count typed as U+001C followed by 5 gets the "valid packet count" warning |
| Validation.CanonicalFormAccepted | DDos.py:502-529 | a form already in canonical shape becomes a request carrying the same texts |
| Messages.TargetNamedIffAddressed | DDos.py:437-480 | every TCP packet text and every UDP text other than Broadcast and Multicast ends with `ip:port`; Broadcast and Multicast UDP texts contain no ':' at all |
| Messages.PacketLinesDistinct | DDos.py:438-450 | two packet lines of one run are equal iff they belong to the same iteration |
| Messages.StatusNamesProtocol | DDos.py:437-480 | every packet text starts with the name of the loop's protocol, whatever the kind |
| Messages.SynExample | DDos.py:437-438 | TCP SYN iteration 1 to 127.0.0.1:8080 reads "TCP SYN packet 1 simulated to 127.0.0.1:8080" |
| Messages.BroadcastExample | DDos.py:472-473 | a UDP Broadcast packet names no target |
| Messages.TcpFallThroughExample | DDos.py:446-447 | a UDP kind sent over TCP is reported as a TCP Data packet |
| Messages.UdpFallThroughExample | DDos.py:478-479 | a TCP kind sent over UDP is reported as a plain addressed UDP packet |
| Controller.Apply | DDos.py:450-455 | logging, counting and recording never touch the running flag |
| Controller.ApplyEffects | DDos.py:423-427 | performing effects appends exactly the logged lines to the log and the recorded rows to the history, raises the counter by the number of counted packets, and leaves the status bar showing the last count |
| Controller.IterationEffects | DDos.py:450-455 | one iteration adds one packet line, one to the counter with a matching status text, and one row |
| Controller.Launch | DDos.py:532-538 | an accepted start sets the flag and appends exactly the banner, packet-count and request-type lines, leaving history, counter and status alone |
| Controller.Start | DDos.py:496-538 | while running, nothing changes; a refused form shows its warning and changes nothing; an accepted form sets the flag and logs exactly the banner, count and request-type lines |
| Controller.Iterate | DDos.py:436-455 | one loop body appends its packet line, raises the counter by one with the status bar showing the new count, appends one request row, and leaves the flag alone |
| Controller.Stop | DDos.py:550-555 | stop always clears the flag and logs one line; counter, history and status stay as they are |
| Controller.ClearLog | DDos.py:569-572 | the log ends up holding only the "Log cleared" line; flag, counter, history and status are unchanged |
| Controller.ClearHistory | DDos.py:564-567 | the history ends up empty; flag, counter, log and status are unchanged |
| Controller.Loop | DDos.py:432-460 | the loop leaves the flag set iff it was set and no stop landed between this point and the completion check; it only appends; it adds one row per counted packet, all equal to the request's row |
| Controller.Simulate | DDos.py:429-494 | after a run the flag is set iff it was set and nobody pressed stop; at most `count` packets are added, one row each |
| Runs.PacketEventsInterleave | DDos.py:432-457 | iteration i's effects are its packet line, its count and its row, in that order, all before iteration i+1's |
| Runs.Run | DDos.py:432-457 | performing a stretch of iterations never touches the running flag |
| Runs.RunPerformsPacketEvents | DDos.py:432-457 | performing the iterations one by one performs their effects in the interleaved order |
| Runs.RunLog | DDos.py:450 | a stretch of iterations adds exactly their packet lines, in iteration order |
| Runs.RunRows | DDos.py:454-455 | a stretch of iterations adds exactly one request row per iteration |
| Runs.RunCounter | DDos.py:451-452 | a stretch of iterations raises the counter by one per iteration, and afterwards the status bar shows the counter |
| Runs.LoopUncancelled | DDos.py:432-460 | without a stop, a loop that finds the flag set runs every remaining iteration and then logs the completion line |
| Runs.UncancelledRunShape | DDos.py:429-460 | an unstopped run is its iterations followed by the completion line, and those iterations perform their effects in the interleaved order |
| Runs.LoopCancelled | DDos.py:433-434 | a stop after k iterations ends the loop with exactly k packets and no completion line |
| Runs.LoopLateStop | DDos.py:459-460 | a stop landing after the run has finished does not affect the loop |
| Runs.UncancelledRun | DDos.py:429-460 | an unstopped run adds exactly `count` packet lines and the completion line, exactly `count` request rows, raises the counter by `count` and leaves the flag set |
| Runs.CancelledRun | DDos.py:429-494 | a run stopped after k iterations adds exactly k packet lines and then the stop line, k rows and k to the counter, and clears the flag |
| Runs.StopAfterCompletion | DDos.py:491-492 | a stop after a finished run puts the stop line after the completion line |
| Runs.IdleRunIsSilent | DDos.py:467-469 | a worker that finds the flag cleared changes nothing |
| Sessions.StepInvariant | DDos.py:564-576 | every action keeps the status bar in step with the counter and never lowers the counter; the clears leave counter and flag alone |
| Sessions.SessionInvariant | DDos.py:451-452 | across any sequence of actions the counter never decreases and the status bar reflects it |
| Sessions.InitialSessions | DDos.py:44-45 | from the opened window every session keeps the status invariant |
| Sessions.ClearsIndependent | DDos.py:564-572 | clearing twice is clearing once, and clearing the log and the history in either order gives the same state |
| Sessions.FlagSetOnlyByUnstoppedStart | DDos.py:532 | only an accepted, unstopped start turns the flag on |
| Sessions.CompletionBlocksRestart | DDos.py:498-499 | after a completed run the flag is still set, so every Start is ignored; after Stop the same form starts again |
| Sessions.AcceptedStartCompletes | DDos.py:531-538 | an accepted start with no stop logs the three start lines, then one packet line per packet, then the completion line |
| Sessions.SynScenarioAccepted | DDos.py:507-529 | the form 127.0.0.1, 8080, count 3 is accepted as typed |
| Sessions.SynScenario | DDos.py:429-460 | a 3-packet TCP SYN run to 127.0.0.1:8080 logs three SYN lines and the completion line, and records three "Simulated" rows whose packet column is 3 |

## Left out

- Threads and `time.sleep`, DDos.py:457, 489 and 541-548. The worker is a pure function. A stop is modelled only at the points where the worker polls the flag. Two windows whose logs the model cannot produce are left out. A stop between the flag check and the packet log (DDos.py:433-450, 468-482) puts the stop line before one more packet line, so k+1 packets follow it. A stop between `if self.is_running:` and the completion log (DDos.py:459-460, 491-492) puts the stop line before the completion line and clears the flag.
- Clears during a run. The Clear Log and Clear History buttons stay enabled while the worker runs (DDos.py:248-256, 315-323), so in the code a clear can land between two packet lines of a run. The model performs each run whole, so a clear happens only before or after a run.
- Two workers at once. In the code, pressing Stop and then Start again before the old worker wakes from its sleep leaves that worker running: it sees the flag set again. In the model each accepted start runs to its end before the next action.
- Timestamps in log lines and history rows, DDos.py:425 and 559. The clock is not modelled. Log lines are the message texts alone, and rows have no time column.
- Stop pressed while idle. The window disables the Stop button whenever `is_running` is false, so `stop_simulation` never runs then. Button state is not modelled, so `Sessions` allow Stop at any time, and it then logs its line as `stop_simulation` would.
- Warning dialogs. Each dialog is the `Refused` outcome, which carries the warning text.
- The Start and Stop buttons being enabled or disabled, DDos.py:533-534 and 553-554. This is widget state. The guard on `is_running` decides what Start does.
- The `except` branches of the worker loops, DDos.py:461-462 and 493-494. Building the texts cannot fail in the model, so the error line is never written.
- Text.ParseInt: Python's `int()` also accepts underscores between digits, non-ASCII digits and non-ASCII whitespace around the literal. Only ASCII decimal literals with an optional sign, padded with space or `\t` to `\r`, are modelled.
- Non-ASCII digits. Python's `isdigit()` also accepts other Unicode digits, such as superscripts, in the address. Only `'0'`–`'9'` count as digits here.
- Text.Strip: strips only the ASCII whitespace of `str.isspace()`, not Unicode spaces.
- Widget layout, styling, the clock ticker, the window centring, the unused `request_history` list, the unused `socket` and `random` imports, and the spinbox's own 1–100 range, DDos.py:214. The 1–1000 check in `start_simulation` governs.

=== FILE: controller.dfy ===
/**
 The state of the request simulator and every transition on it: the UI
 actions (start, stop, clear log, clear history) and the worker loops of
 `simulate_tcp_request` / `simulate_udp_request`.

 The worker thread is modelled sequentially. Its only contact with the UI
 thread is the `is_running` flag, polled at the top of every iteration and
 once more after the loop; a stop pressed during a run is therefore given as
 the number of iterations completed when it lands (`stop == Some(k)`).
 */
module Controller {
  import opened Wrappers
  import opened Validation
  import opened Messages

  /** One row of the history table (its time column is not modelled). */
  datatype Row = Row(protocol: Protocol, ip: string, port: string, kind: RequestKind, packets: nat, status: string)

  /** `is_running`, the cumulative `packet_count`, the log text (one entry per
      line), the history table and the status bar text. */
  datatype State = State(running: bool, sent: nat, log: seq<string>, history: seq<Row>, status: string)

  /** The state right after the window is built. */
  const Initial: State := State(false, 0, WelcomeLines, [], ReadyStatus)

  // ---------------------------------------------------------------------------
  // The three effects a run has on the UI

  /** `log(text)`; `packet_count += 1` followed by `update_status()`;
      `add_to_history(row)`. */
  datatype Event = Logged(text: string) | Counted | Recorded(row: Row)

  function Sink(s: State, e: Event): State
  {
    match e
    case Logged(text) => s.(log := s.log + [text])
    case Counted => s.(sent := s.sent + 1, status := StatusText(s.sent + 1))
    case Recorded(row) => s.(history := s.history + [row])
  }

  /** The lines a sequence of effects adds to the log. */
  function LogTexts(es: seq<Event>): seq<string>
  {
    if |es| == 0 then []
    else (if es[0].Logged? then [es[0].text] else []) + LogTexts(es[1..])
  }

  /** The rows a sequence of effects adds to the history. */
  function RowsOf(es: seq<Event>): seq<Row>
  {
    if |es| == 0 then []
    else (if es[0].Recorded? then [es[0].row] else []) + RowsOf(es[1..])
  }

  /** How many packets a sequence of effects counts. */
  function CountOf(es: seq<Event>): nat
  {
    if |es| == 0 then 0 else (if es[0].Counted? then 1 else 0) + CountOf(es[1..])
  }

  /** Performs the effects in order; the running flag is never touched. */
  function Apply(s: State, es: seq<Event>): (t: State)
    ensures t.running == s.running
    decreases |es|
  {
    if |es| == 0 then s else Apply(Sink(s, es[0]), es[1..])
  }

  /** What performing effects does: logging and recording only append, the
      counter grows by one per counted packet, and the status bar shows the
      counter after the last counted packet (it is left alone by effects
      that count nothing). */
  lemma {:induction false} ApplyEffects(s: State, es: seq<Event>)
    ensures Apply(s, es).log == s.log + LogTexts(es)
    ensures Apply(s, es).history == s.history + RowsOf(es)
    ensures Apply(s, es).sent == s.sent + CountOf(es)
    ensures Apply(s, es).status == if CountOf(es) == 0 then s.status else StatusText(Apply(s, es).sent)
    decreases |es|
  {
    if |es| > 0 {
      var s' := Sink(s, es[0]);
      ApplyEffects(s', es[1..]);
      assert Apply(s, es) == Apply(s', es[1..]);
      match es[0]
      case Logged(x) =>
        assert LogTexts(es) == [x] + LogTexts(es[1..]);
        assert RowsOf(es) == RowsOf(es[1..]);
      case Counted =>
        assert LogTexts(es) == LogTexts(es[1..]);
        assert RowsOf(es) == RowsOf(es[1..]);
      case Recorded(row) =>
        assert LogTexts(es) == LogTexts(es[1..]);
        assert RowsOf(es) == [row] + RowsOf(es[1..]);
    }
  }

  // ---------------------------------------------------------------------------
  // UI actions

  datatype StartOutcome = AlreadyRunning | Refused(warning: Warning) | Launched(request: Request)

  /** The state after an action together with what the action did. */
  datatype Transition = Transition(state: State, outcome: StartOutcome)

  /** `start_simulation`: ignored while a run is flagged; otherwise the form is
      validated and, if accepted, the flag is set and three lines are logged
      before the worker is launched (the run itself is `Simulate`). */
  function Start(s: State, f: Form): (t: Transition)
    // the running guard: nothing at all changes
    ensures s.running ==> t == Transition(s, AlreadyRunning)
    // a refused form: a warning and no state change
    ensures !s.running && Validate(f).Failure? ==> t == Transition(s, Refused(Validate(f).error))
    // an accepted form: the flag is set and exactly three lines are logged
    ensures !s.running && Validate(f).Success? ==>
      var r := Validate(f).value;
      && t.outcome == Launched(r)
      && t.state.running
      && t.state.log == s.log + [StartBanner(r.protocol, r.ip, r.port), CountLine(r.count), KindLine(r.kind)]
      && t.state.history == s.history && t.state.sent == s.sent && t.state.status == s.status
  {
    if s.running then Transition(s, AlreadyRunning)
    else
      match Validate(f)
      case Failure(w) => Transition(s, Refused(w))
      case Success(r) => Transition(Launch(s, r), Launched(r))
  }

  /** The part of an accepted start that happens on the UI thread: set the
      flag, then log the banner, the packet count and the request type. */
  function Launch(s: State, r: Request): (t: State)
    ensures t.running
    ensures t.log == s.log + [StartBanner(r.protocol, r.ip, r.port), CountLine(r.count), KindLine(r.kind)]
    ensures t.history == s.history && t.sent == s.sent && t.status == s.status
  {
    var banner := Sink(s.(running := true), Logged(StartBanner(r.protocol, r.ip, r.port)));
    var counted := Sink(banner, Logged(CountLine(r.count)));
    Sink(counted, Logged(KindLine(r.kind)))
  }

  /** `stop_simulation`: unconditionally clears the flag and logs a line, even
      when nothing is running. */
  function Stop(s: State): (t: State)
    ensures !t.running
    ensures t.log == s.log + [StoppedLine]
    ensures t.sent == s.sent && t.history == s.history && t.status == s.status
  {
    Sink(s.(running := false), Logged(StoppedLine))
  }

  /** `clear_log`: empties the log, then logs that it did. */
  function ClearLog(s: State): (t: State)
    ensures t.log == [ClearedLine]
    ensures t.running == s.running && t.sent == s.sent && t.history == s.history && t.status == s.status
  {
    Sink(s.(log := []), Logged(ClearedLine))
  }

  /** `clear_history`: deletes every row and nothing else. */
  function ClearHistory(s: State): (t: State)
    ensures t.history == []
    ensures t.running == s.running && t.sent == s.sent && t.log == s.log && t.status == s.status
  {
    s.(history := [])
  }

  // ---------------------------------------------------------------------------
  // The worker

  /** The row every iteration records: the packet column holds the requested
      total, not the iteration number. */
  function HistoryRow(r: Request): Row
  {
    Row(r.protocol, r.ip, r.port, r.kind, r.count, "Simulated")
  }

  /** The effects of the 1-based iteration `i`, in the order the loop body
      makes them. */
  function IterationEvents(r: Request, i: nat): seq<Event>
  {
    [Logged(PacketLine(r, i)), Counted, Recorded(HistoryRow(r))]
  }

  /** One iteration logs one packet line, counts one packet and records one row. */
  lemma IterationEffects(s: State, r: Request, i: nat)
    ensures Apply(s, IterationEvents(r, i)).log == s.log + [PacketLine(r, i)]
    ensures Apply(s, IterationEvents(r, i)).sent == s.sent + 1
    ensures Apply(s, IterationEvents(r, i)).history == s.history + [HistoryRow(r)]
    ensures Apply(s, IterationEvents(r, i)).status == StatusText(s.sent + 1)
  {
    var es := IterationEvents(r, i);
    ApplyEffects(s, es);
    assert es[1..][1..][1..] == [];
    assert LogTexts(es[1..][1..]) == [];
    assert LogTexts(es[1..]) == [];
    assert LogTexts(es) == [PacketLine(r, i)];
    assert RowsOf(es[1..][1..]) == [HistoryRow(r)];
    assert RowsOf(es) == [HistoryRow(r)];
    assert CountOf(es[1..][1..]) == 0;
    assert CountOf(es) == 1;
  }

  /** Runs the body of iteration `i`. */
  function Iterate(s: State, r: Request, i: nat): (t: State)
    ensures t.running == s.running
    ensures t.log == s.log + [PacketLine(r, i)]
    ensures t.sent == s.sent + 1 && t.status == StatusText(t.sent)
    ensures t.history == s.history + [HistoryRow(r)]
  {
    IterationEffects(s, r, i);
    Apply(s, IterationEvents(r, i))
  }

  /** Whether a stop landing after `k` iterations is seen by the flag check
      that follows iteration `done` or a later one. */
  predicate StopsAtOrAfter(stop: Option<nat>, done: nat, count: nat)
  {
    stop.Some? && done <= stop.value <= count
  }

  /** The worker loop from the flag check that follows `done` iterations. A
      cleared flag ends the loop without the completion line; a set flag runs
      the next iteration, or logs the completion line once all are done and
      leaves the flag set. */
  function Loop(s: State, r: Request, done: nat, stop: Option<nat>): (t: State)
    requires done <= r.count
    ensures t.running <==> s.running && !StopsAtOrAfter(stop, done, r.count)
    ensures s.log <= t.log && s.history <= t.history
    ensures s.sent <= t.sent <= s.sent + (r.count - done)
    ensures |t.history| - |s.history| == t.sent - s.sent
    ensures forall j | |s.history| <= j < |t.history| :: t.history[j] == HistoryRow(r)
    ensures t.status == if t.sent == s.sent then s.status else StatusText(t.sent)
    decreases r.count - done
  {
    var s' := if stop == Some(done) then Stop(s) else s;
    if !s'.running then s'
    else if done < r.count then Loop(Iterate(s', r, done + 1), r, done + 1, stop)
    else Sink(s', Logged(CompletionLine(r.protocol)))
  }

  /** A whole run of the worker for request `r`. `stop == Some(k)` with
      `k <= r.count` places a stop after `k` iterations (with `k == r.count`,
      just before the completion check); with `k > r.count` the stop comes
      after the run has finished. Only a stop clears the flag. */
  function Simulate(s: State, r: Request, stop: Option<nat>): (t: State)
    ensures t.running <==> s.running && stop.None?
    ensures s.log <= t.log && s.history <= t.history
    ensures s.sent <= t.sent <= s.sent + r.count
    ensures |t.history| - |s.history| == t.sent - s.sent
    ensures forall j | |s.history| <= j < |t.history| :: t.history[j] == HistoryRow(r)
    ensures t.status == if t.sent == s.sent then s.status else StatusText(t.sent)
  {
    var t := Loop(s, r, 0, stop);
    if stop.Some? && stop.value > r.count then Stop(t) else t
  }
}

=== FILE: messages.dfy ===
/**
 The texts the controller writes: the per-packet lines of the two worker loops,
 the banners of a start, the stop, completion and clear lines, and the status bar.
 Timestamps are not part of these texts (see README).
 */
module Messages {
  import opened Text
  import opened Validation

  /** The packet text of iteration `i` splits around the iteration number:
      `Template(...).0 + str(i) + Template(...).1`. The TCP loop knows SYN, ACK
      and FIN and treats every other kind as Data; the UDP loop knows Broadcast
      and Multicast (which name no target) and treats every other kind as a
      plain addressed packet. */
  function Template(p: Protocol, k: RequestKind, ip: string, port: string): (string, string)
  {
    var target := " simulated to " + ip + ":" + port;
    match p
    case TCP =>
      (match k
       case SynRequest => ("TCP SYN packet ", target)
       case AckRequest => ("TCP ACK packet ", target)
       case FinRequest => ("TCP FIN packet ", target)
       case _ => ("TCP Data packet ", target))
    case UDP =>
      (match k
       case Broadcast => ("UDP Broadcast packet ", " simulated")
       case Multicast => ("UDP Multicast packet ", " simulated")
       case _ => ("UDP packet ", target))
  }

  /** The status text of the 1-based iteration `i`. */
  function PacketStatus(p: Protocol, k: RequestKind, i: nat, ip: string, port: string): string
  {
    Template(p, k, ip, port).0 + NatToString(i) + Template(p, k, ip, port).1
  }

  /** The coloured marker put before a packet's status text. */
  function Marker(p: Protocol, k: RequestKind): string
  {
    match p
    case TCP =>
      (match k
       case SynRequest => "\U{1F7E1}"
       case AckRequest => "\U{1F7E2}"
       case FinRequest => "\U{1F535}"
       case _ => "\U{1F7E3}")
    case UDP =>
      (match k
       case Broadcast => "\U{1F3AF}"
       case Multicast => "\U{1F4E1}"
       case _ => "\U{1F537}")
  }

  /** The log line of iteration `i` of a run of request `r`. */
  function PacketLine(r: Request, i: nat): string
  {
    Marker(r.protocol, r.kind) + " " + PacketStatus(r.protocol, r.kind, i, r.ip, r.port)
  }

  /** Whether a packet of this protocol and kind names its target. */
  predicate Addressed(p: Protocol, k: RequestKind) {
    !(p == UDP && (k == Broadcast || k == Multicast))
  }

  function CompletionLine(p: Protocol): string {
    "\U{2705} " + p.Name() + " simulation completed successfully"
  }

  function StartBanner(p: Protocol, ip: string, port: string): string {
    "\U{1F680} Starting " + p.Name() + " simulation to " + ip + ":" + port
  }

  function CountLine(count: nat): string {
    "\U{1F4E6} Packets to send: " + NatToString(count)
  }

  function KindLine(k: RequestKind): string {
    "\U{1F3AF} Request type: " + k.Label()
  }

  const StoppedLine: string := "\U{1F6D1} Simulation stopped by user"
  const ClearedLine: string := "\U{1F5D1} Log cleared"

  /** The three lines the log holds when the window opens. */
  const WelcomeLines: seq<string> := [
    "\U{1F7E2} Network Learning Tool initialized",
    "\U{1F527} Ready to simulate network requests",
    "\U{26A0}\U{FE0F}  WARNING: Only use on your own systems!"
  ]

  const ReadyStatus: string := "\U{1F7E2} Ready | Packets Sent: 0"

  /** The status bar after `sent` packets; it says "Running" even after a stop. */
  function StatusText(sent: nat): string {
    "\U{1F7E2} Running | Packets Sent: " + NatToString(sent)
  }

  // ---------------------------------------------------------------------------
  // Properties of the texts

  /** Addressed packets end with `ip:port`; Broadcast and Multicast UDP
      packets contain no ':' at all, so they name no target whatever the
      address and port are. */
  lemma TargetNamedIffAddressed(p: Protocol, k: RequestKind, i: nat, ip: string, port: string)
    ensures Addressed(p, k) ==>
      var s := PacketStatus(p, k, i, ip, port);
      var target := ip + ":" + port;
      |s| >= |target| && s[|s| - |target|..] == target
    ensures !Addressed(p, k) ==> ':' !in PacketStatus(p, k, i, ip, port)
  {
    var lead := Template(p, k, ip, port).0;
    var n := NatToString(i);
    var s := PacketStatus(p, k, i, ip, port);
    if Addressed(p, k) {
      var target := ip + ":" + port;
      assert s == (lead + n + " simulated to ") + target;
    } else {
      assert ':' !in n by {
        forall j | 0 <= j < |n| ensures n[j] != ':' { assert IsDigit(n[j]); }
      }
      assert ':' !in lead;
      assert ':' !in " simulated";
      assert s == lead + n + " simulated";
    }
  }

  /** Equal text on both sides of two middles makes the middles equal. */
  lemma CancelAround(lead: string, a: string, b: string, tail: string)
    requires lead + a + tail == lead + b + tail
    ensures a == b
  {
    var s := lead + a + tail;
    assert |a| == |b|;
    assert a == s[|lead|..|lead| + |a|];
    assert b == (lead + b + tail)[|lead|..|lead| + |b|];
  }

  /** Different iterations of one run produce different packet lines, so the
      log shows which iteration each line belongs to. */
  lemma PacketLinesDistinct(r: Request, i: nat, j: nat)
    ensures PacketLine(r, i) == PacketLine(r, j) <==> i == j
  {
    if PacketLine(r, i) == PacketLine(r, j) {
      var m := Marker(r.protocol, r.kind) + " ";
      var t := Template(r.protocol, r.kind, r.ip, r.port);
      assert PacketLine(r, i) == m + t.0 + NatToString(i) + t.1;
      assert PacketLine(r, j) == m + t.0 + NatToString(j) + t.1;
      CancelAround(m + t.0, NatToString(i), NatToString(j), t.1);
      NatToStringInjective(i, j);
    }
  }

  /** Every packet text starts with its protocol's name, whatever the kind:
      a UDP run of a TCP kind is still reported as UDP. */
  lemma StatusNamesProtocol(p: Protocol, k: RequestKind, i: nat, ip: string, port: string)
    ensures |PacketStatus(p, k, i, ip, port)| > 3
    ensures PacketStatus(p, k, i, ip, port)[..3] == p.Name()
  {
    var t := Template(p, k, ip, port);
    LeadNamesProtocol(p, k, ip, port);
    var rest := NatToString(i) + t.1;
    assert PacketStatus(p, k, i, ip, port) == t.0 + rest;
    assert (t.0 + rest)[..3] == t.0[..3];
  }

  lemma LeadNamesProtocol(p: Protocol, k: RequestKind, ip: string, port: string)
    ensures |Template(p, k, ip, port).0| > 3
    ensures Template(p, k, ip, port).0[..3] == p.Name()
  {
    match p
    case TCP =>
      assert Template(p, k, ip, port).0[..4] == "TCP ";
    case UDP =>
      assert Template(p, k, ip, port).0[..4] == "UDP ";
  }

  /** A TCP SYN packet names its target. */
  lemma SynExample()
    ensures PacketStatus(TCP, SynRequest, 1, "127.0.0.1", "8080") ==
      "TCP SYN packet " + "1" + " simulated to " + "127.0.0.1" + ":" + "8080"
  {
    assert NatToString(1) == "1";
  }

  /** A UDP broadcast names no target. */
  lemma BroadcastExample()
    ensures PacketStatus(UDP, Broadcast, 2, "127.0.0.1", "8080") == "UDP Broadcast packet " + "2" + " simulated"
  {
    assert NatToString(2) == "2";
  }

  /** A UDP kind run over TCP falls through to the Data template. */
  lemma TcpFallThroughExample()
    ensures PacketStatus(TCP, Broadcast, 3, "10.0.0.1", "53") ==
      "TCP Data packet " + "3" + " simulated to " + "10.0.0.1" + ":" + "53"
  {
    assert NatToString(3) == "3";
  }

  /** A TCP kind run over UDP falls through to the plain addressed template. */
  lemma UdpFallThroughExample()
    ensures PacketStatus(UDP, SynRequest, 4, "10.0.0.1", "53") ==
      "UDP packet " + "4" + " simulated to " + "10.0.0.1" + ":" + "53"
  {
    assert NatToString(4) == "4";
  }
}

=== FILE: runs.dfy ===
/**
 Whole runs of the worker: what a run with or without a stop leaves in the
 log, the history and the counter, and how the effects of consecutive
 iterations interleave.
 */
module Runs {
  import opened Wrappers
  import opened Validation
  import opened Messages
  import opened Controller

  /** The effects of iterations `lo + 1` to `hi`, in order. */
  function PacketEvents(r: Request, lo: nat, hi: nat): seq<Event>
    requires lo <= hi
    decreases hi - lo
  {
    if lo == hi then [] else IterationEvents(r, lo + 1) + PacketEvents(r, lo + 1, hi)
  }

  /** The packet lines of iterations `lo + 1` to `hi`. */
  function PacketLines(r: Request, lo: nat, hi: nat): seq<string>
    requires lo <= hi
  {
    seq(hi - lo, j requires 0 <= j < hi - lo => PacketLine(r, lo + j + 1))
  }

  /** The effects of the `j`-th iteration (0-based) within a run of effects. */
  function Chunk(es: seq<Event>, j: nat): seq<Event>
    requires 3 * j + 3 <= |es|
  {
    es[3 * j..3 * j + 3]
  }

  // ---------------------------------------------------------------------------
  // Effects

  lemma {:induction false} ApplyConcat(s: State, a: seq<Event>, b: seq<Event>)
    ensures Apply(s, a + b) == Apply(Apply(s, a), b)
    decreases |a|
  {
    if |a| > 0 {
      assert (a + b)[1..] == a[1..] + b;
      ApplyConcat(Sink(s, a[0]), a[1..], b);
    } else {
      assert a + b == b;
    }
  }

  /** Iterations follow one another in lock-step: the effects of iteration `i`
      are its packet line, its count, its row, in that order, and all three
      come before any effect of iteration `i + 1`. */
  lemma {:induction false} PacketEventsInterleave(r: Request, lo: nat, hi: nat)
    requires lo <= hi
    ensures |PacketEvents(r, lo, hi)| == 3 * (hi - lo)
    ensures forall j | 0 <= j < hi - lo :: Chunk(PacketEvents(r, lo, hi), j) == IterationEvents(r, lo + j + 1)
    decreases hi - lo
  {
    if lo < hi {
      var es := PacketEvents(r, lo, hi);
      var rest := PacketEvents(r, lo + 1, hi);
      PacketEventsInterleave(r, lo + 1, hi);
      assert es == IterationEvents(r, lo + 1) + rest;
      forall j | 0 <= j < hi - lo
        ensures Chunk(es, j) == IterationEvents(r, lo + j + 1)
      {
        if j > 0 {
          assert Chunk(es, j) == Chunk(rest, j - 1);
        }
      }
    }
  }

  lemma PacketLinesCons(r: Request, lo: nat, hi: nat)
    requires lo < hi
    ensures PacketLines(r, lo, hi) == [PacketLine(r, lo + 1)] + PacketLines(r, lo + 1, hi)
  {
  }

  /** Iterations `lo + 1` to `hi` performed one after another on the state. */
  function Run(s: State, r: Request, lo: nat, hi: nat): (t: State)
    requires lo <= hi
    ensures t.running == s.running
    decreases hi - lo
  {
    if lo == hi then s else Run(Iterate(s, r, lo + 1), r, lo + 1, hi)
  }

  /** Performing the iterations one by one is performing their effects in
      the interleaved order. */
  lemma {:induction false} RunPerformsPacketEvents(s: State, r: Request, lo: nat, hi: nat)
    requires lo <= hi
    ensures Run(s, r, lo, hi) == Apply(s, PacketEvents(r, lo, hi))
    decreases hi - lo
  {
    if lo < hi {
      var it := IterationEvents(r, lo + 1);
      RunPerformsPacketEvents(Iterate(s, r, lo + 1), r, lo + 1, hi);
      ApplyConcat(s, it, PacketEvents(r, lo + 1, hi));
    }
  }

  /** Over a run of iterations the log gains exactly their packet lines, in
      iteration order. */
  lemma {:induction false} RunLog(s: State, r: Request, lo: nat, hi: nat)
    requires lo <= hi
    ensures Run(s, r, lo, hi).log == s.log + PacketLines(r, lo, hi)
    decreases hi - lo
  {
    if lo < hi {
      var s' := Iterate(s, r, lo + 1);
      RunLog(s', r, lo + 1, hi);
      PacketLinesCons(r, lo, hi);
      calc {
        Run(s, r, lo, hi).log;
        Run(s', r, lo + 1, hi).log;
        s'.log + PacketLines(r, lo + 1, hi);
        s.log + ([PacketLine(r, lo + 1)] + PacketLines(r, lo + 1, hi));
      }
    }
  }

  lemma RowsCons(r: Request, n: nat)
    requires n > 0
    ensures seq(n, _ => HistoryRow(r)) == [HistoryRow(r)] + seq(n - 1, _ => HistoryRow(r))
  {
  }

  /** Over a run of iterations the history gains one row per iteration. */
  lemma {:induction false} RunRows(s: State, r: Request, lo: nat, hi: nat)
    requires lo <= hi
    ensures Run(s, r, lo, hi).history == s.history + seq(hi - lo, _ => HistoryRow(r))
    decreases hi - lo
  {
    if lo < hi {
      var s' := Iterate(s, r, lo + 1);
      RunRows(s', r, lo + 1, hi);
      RowsCons(r, hi - lo);
      calc {
        Run(s, r, lo, hi).history;
        Run(s', r, lo + 1, hi).history;
        s'.history + seq(hi - lo - 1, _ => HistoryRow(r));
        s.history + ([HistoryRow(r)] + seq(hi - lo - 1, _ => HistoryRow(r)));
      }
    }
  }

  /** Over a run of iterations the counter rises by one per iteration, and
      the status bar shows the new count. */
  lemma {:induction false} RunCounter(s: State, r: Request, lo: nat, hi: nat)
    requires lo <= hi
    ensures Run(s, r, lo, hi).sent == s.sent + (hi - lo)
    ensures lo < hi ==> Run(s, r, lo, hi).status == StatusText(Run(s, r, lo, hi).sent)
    ensures lo == hi ==> Run(s, r, lo, hi).status == s.status
    decreases hi - lo
  {
    if lo < hi {
      var s' := Iterate(s, r, lo + 1);
      RunCounter(s', r, lo + 1, hi);
      assert Run(s, r, lo, hi) == Run(s', r, lo + 1, hi);
    }
  }

  // ---------------------------------------------------------------------------
  // The worker loop

  /** Without a stop, a loop that finds the flag set runs every remaining
      iteration and then logs the completion line. */
  lemma {:induction false} LoopUncancelled(s: State, r: Request, done: nat)
    requires s.running && done <= r.count
    ensures Loop(s, r, done, None) == Sink(Run(s, r, done, r.count), Logged(CompletionLine(r.protocol)))
    decreases r.count - done
  {
    if done < r.count {
      LoopUncancelled(Iterate(s, r, done + 1), r, done + 1);
    }
  }

  /** A stop after `k` iterations ends the loop right there: the flag check
      that follows sees it, so no further packet and no completion line. */
  lemma {:induction false} LoopCancelled(s: State, r: Request, done: nat, k: nat)
    requires s.running && done <= k <= r.count
    ensures Loop(s, r, done, Some(k)) == Stop(Run(s, r, done, k))
    decreases k - done
  {
    if done < k {
      LoopCancelled(Iterate(s, r, done + 1), r, done + 1, k);
    }
  }

  /** A stop that lands after the run has finished does not affect the loop. */
  lemma {:induction false} LoopLateStop(s: State, r: Request, done: nat, k: nat)
    requires done <= r.count < k
    ensures Loop(s, r, done, Some(k)) == Loop(s, r, done, None)
    decreases r.count - done
  {
    if s.running && done < r.count {
      LoopLateStop(Iterate(s, r, done + 1), r, done + 1, k);
    }
  }

  // ---------------------------------------------------------------------------
  // Whole runs

  /** A run nobody stops emits exactly `count` packet lines and rows, followed
      by one completion line, raises the counter by exactly `count`, and leaves
      the flag set. */
  lemma UncancelledRun(s: State, r: Request)
    requires s.running
    ensures Simulate(s, r, None).running
    ensures Simulate(s, r, None).log == s.log + PacketLines(r, 0, r.count) + [CompletionLine(r.protocol)]
    ensures Simulate(s, r, None).history == s.history + seq(r.count, _ => HistoryRow(r))
    ensures Simulate(s, r, None).sent == s.sent + r.count
    ensures r.count > 0 ==> Simulate(s, r, None).status == StatusText(s.sent + r.count)
  {
    UncancelledRunShape(s, r);
    RunLog(s, r, 0, r.count);
    RunRows(s, r, 0, r.count);
    RunCounter(s, r, 0, r.count);
  }

  /** An unstopped run is its iterations followed by the completion line,
      and its iterations perform their effects in the interleaved order. */
  lemma UncancelledRunShape(s: State, r: Request)
    requires s.running
    ensures Simulate(s, r, None) == Sink(Run(s, r, 0, r.count), Logged(CompletionLine(r.protocol)))
    ensures Run(s, r, 0, r.count) == Apply(s, PacketEvents(r, 0, r.count))
  {
    LoopUncancelled(s, r, 0);
    RunPerformsPacketEvents(s, r, 0, r.count);
  }

  /** A stop after `k` of the `count` iterations: exactly `k` packet lines and
      rows, then the stop line and no completion line; the counter rises by `k`
      and the flag is cleared. */
  lemma CancelledRun(s: State, r: Request, k: nat)
    requires s.running && k <= r.count
    ensures !Simulate(s, r, Some(k)).running
    ensures Simulate(s, r, Some(k)).log == s.log + PacketLines(r, 0, k) + [StoppedLine]
    ensures Simulate(s, r, Some(k)).history == s.history + seq(k, _ => HistoryRow(r))
    ensures Simulate(s, r, Some(k)).sent == s.sent + k
  {
    LoopCancelled(s, r, 0, k);
    RunLog(s, r, 0, k);
    RunRows(s, r, 0, k);
    RunCounter(s, r, 0, k);
  }

  /** A stop after a finished run only adds the stop line after the
      completion line. */
  lemma StopAfterCompletion(s: State, r: Request, k: nat)
    requires s.running && k > r.count
    ensures Simulate(s, r, Some(k)) == Stop(Simulate(s, r, None))
    ensures Simulate(s, r, Some(k)).log == s.log + PacketLines(r, 0, r.count) + [CompletionLine(r.protocol), StoppedLine]
  {
    LoopLateStop(s, r, 0, k);
    UncancelledRun(s, r);
  }

  /** A worker that finds the flag already cleared does nothing at all. */
  lemma IdleRunIsSilent(s: State, r: Request)
    requires !s.running
    ensures Simulate(s, r, None) == s
  {
  }
}

=== FILE: sessions.dfy ===
/**
 Sessions: any sequence of user actions from the moment the window opens.
 A pressed Start that is accepted is followed by its whole run, stopped (or
 not) as the action says.
 */
module Sessions {
  import opened Wrappers
  import opened Text
  import opened Validation
  import opened Messages
  import opened Controller
  import opened Runs

  datatype Action = PressStart(form: Form, stop: Option<nat>) | PressStop | PressClearLog | PressClearHistory

  function Step(s: State, a: Action): State
  {
    match a
    case PressStart(f, stop) =>
      var t := Start(s, f);
      if t.outcome.Launched? then Simulate(t.state, t.outcome.request, stop) else t.state
    case PressStop => Stop(s)
    case PressClearLog => ClearLog(s)
    case PressClearHistory => ClearHistory(s)
  }

  function Session(s: State, actions: seq<Action>): State
    decreases |actions|
  {
    if |actions| == 0 then s else Session(Step(s, actions[0]), actions[1..])
  }

  /** The status bar shows the packet counter, or the initial "Ready" text
      while nothing has been sent. */
  predicate StatusShowsCount(s: State)
  {
    s.status == StatusText(s.sent) || (s.sent == 0 && s.status == ReadyStatus)
  }

  /** Every action keeps the status bar in step with the counter and never
      lowers the counter; the clears leave counter and flag alone. */
  lemma StepInvariant(s: State, a: Action)
    requires StatusShowsCount(s)
    ensures StatusShowsCount(Step(s, a))
    ensures s.sent <= Step(s, a).sent
    ensures a.PressClearLog? || a.PressClearHistory? ==>
      Step(s, a).sent == s.sent && Step(s, a).running == s.running
  {
  }

  /** Over a whole session the counter never decreases and the status bar
      always reflects it. */
  lemma {:induction false} SessionInvariant(s: State, actions: seq<Action>)
    requires StatusShowsCount(s)
    ensures StatusShowsCount(Session(s, actions))
    ensures s.sent <= Session(s, actions).sent
    decreases |actions|
  {
    if |actions| > 0 {
      StepInvariant(s, actions[0]);
      SessionInvariant(Step(s, actions[0]), actions[1..]);
    }
  }

  /** From the opened window, every session keeps the invariant. */
  lemma InitialSessions(actions: seq<Action>)
    ensures StatusShowsCount(Session(Initial, actions))
  {
    SessionInvariant(Initial, actions);
  }

  /** Clearing twice is clearing once, and the two clears do not interfere:
      either order leaves just the "Log cleared" line and an empty history. */
  lemma ClearsIndependent(s: State)
    ensures ClearLog(ClearLog(s)) == ClearLog(s)
    ensures ClearHistory(ClearHistory(s)) == ClearHistory(s)
    ensures ClearLog(ClearHistory(s)) == ClearHistory(ClearLog(s))
    ensures ClearLog(ClearHistory(s)).log == [ClearedLine] && ClearLog(ClearHistory(s)).history == []
  {
  }

  /** Only an accepted start that nobody stops leaves the flag newly set. */
  lemma FlagSetOnlyByUnstoppedStart(s: State, a: Action)
    requires !s.running && Step(s, a).running
    ensures a.PressStart? && Validate(a.form).Success? && a.stop.None?
  {
  }

  /** A run that completes leaves the flag set, so every later Start is ignored
      until Stop is pressed; after Stop the same form starts again. */
  lemma CompletionBlocksRestart(s: State, f: Form, g: Form, stop: Option<nat>)
    requires !s.running && Validate(f).Success?
    ensures Step(s, PressStart(f, None)).running
    ensures Start(Step(s, PressStart(f, None)), g) == Transition(Step(s, PressStart(f, None)), AlreadyRunning)
    ensures Step(Step(s, PressStart(f, None)), PressStart(g, stop)) == Step(s, PressStart(f, None))
    ensures Start(Stop(Step(s, PressStart(f, None))), f).outcome == Launched(Validate(f).value)
  {
  }

  /** Pressing Start on an accepted form while idle, with no stop: the three
      start lines, one packet line per requested packet, the completion line;
      one row per packet; the counter up by the requested count; the flag left
      set. */
  lemma AcceptedStartCompletes(s: State, f: Form)
    requires !s.running && Validate(f).Success?
    ensures
      var r := Validate(f).value;
      var t := Step(s, PressStart(f, None));
      && t.running
      && t.sent == s.sent + r.count
      && t.log == s.log + [StartBanner(r.protocol, r.ip, r.port), CountLine(r.count), KindLine(r.kind)]
                        + PacketLines(r, 0, r.count) + [CompletionLine(r.protocol)]
      && t.history == s.history + seq(r.count, _ => HistoryRow(r))
  {
    UncancelledRun(Start(s, f).state, Validate(f).value);
  }

  /** The form of the worked example is accepted as it stands. */
  lemma SynScenarioAccepted()
    ensures Validate(Form("127.0.0.1", "8080", TCP, SynRequest, "3"))
         == Success(Request("127.0.0.1", "8080", TCP, SynRequest, 3))
  {
    ExampleNumerals();
    ExampleAddress();
    CanonicalFormAccepted(Form("127.0.0.1", "8080", TCP, SynRequest, "3"), 3, 8080);
  }

  lemma ExampleNumerals()
    ensures NatToString(3) == "3" && NatToString(8080) == "8080"
  {
  }

  lemma ExampleAddress()
    ensures Strip("127.0.0.1") == "127.0.0.1" && AddressAccepted("127.0.0.1")
  {
    StripEdgeless("127.0.0.1");
    LargeOctetAccepted("127", "0", "0", "1");
    assert "127" + "." + "0" + "." + "0" + "." + "1" == "127.0.0.1";
  }

  /** The worked example: 127.0.0.1:8080, TCP, SYN Request, 3 packets, from the
      opened window. The log gets the three start lines, three SYN lines and
      the completion line; the history gets three "Simulated" rows whose packet
      column is 3. */
  lemma SynScenario()
    ensures
      var f := Form("127.0.0.1", "8080", TCP, SynRequest, "3");
      var r := Request("127.0.0.1", "8080", TCP, SynRequest, 3);
      var t := Step(Initial, PressStart(f, None));
      && t.running
      && t.sent == 3
      && t.log == WelcomeLines
           + [StartBanner(TCP, "127.0.0.1", "8080"), CountLine(3), KindLine(SynRequest)]
           + [PacketLine(r, 1), PacketLine(r, 2), PacketLine(r, 3)]
           + [CompletionLine(TCP)]
      && t.history == [HistoryRow(r), HistoryRow(r), HistoryRow(r)]
  {
    var f := Form("127.0.0.1", "8080", TCP, SynRequest, "3");
    var r := Request("127.0.0.1", "8080", TCP, SynRequest, 3);
    SynScenarioAccepted();
    AcceptedStartCompletes(Initial, f);
    ThreePackets(r);
  }

  lemma ThreePackets(r: Request)
    ensures PacketLines(r, 0, 3) == [PacketLine(r, 1), PacketLine(r, 2), PacketLine(r, 3)]
    ensures seq(3, _ => HistoryRow(r)) == [HistoryRow(r), HistoryRow(r), HistoryRow(r)]
  {
  }
}

=== FILE: text.dfy ===
/**
 The handful of Python string operations the controller relies on, restricted to
 ASCII: `str.strip()`, `str.split('.')`, `str.replace('.', '')`, `str.isdigit()`,
 `str(n)` for a natural number and `int(s)` for a decimal literal.
 */
module Text {
  import opened Wrappers

  /** The ASCII characters Python's `str.isspace()` accepts, which is what
      `str.strip()` removes. */
  predicate IsSpace(c: char) {
    c == ' ' || ('\U{9}' <= c <= '\U{D}') || ('\U{1C}' <= c <= '\U{1F}')
  }

  /** The ASCII characters `int()` skips around its literal: the C-locale
      spaces, without the separators U+001C to U+001F that `strip()` also
      removes. */
  predicate IsIntSpace(c: char) {
    c == ' ' || ('\U{9}' <= c <= '\U{D}')
  }

  /** Which characters a trim removes: those of `str.strip()` or those of `int()`. */
  datatype Blanks = StripBlanks | IntBlanks

  predicate IsBlank(b: Blanks, c: char) {
    match b
    case StripBlanks => IsSpace(c)
    case IntBlanks => IsIntSpace(c)
  }

  predicate IsDigit(c: char) {
    '0' <= c <= '9'
  }

  predicate AllDigits(s: string) {
    forall i | 0 <= i < |s| :: IsDigit(s[i])
  }

  /** `s.isdigit()` for ASCII text: false on the empty string. */
  predicate IsDigits(s: string) {
    |s| > 0 && AllDigits(s)
  }

  // ---------------------------------------------------------------------------
  // Decimal numerals

  function DigitValue(c: char): (d: nat)
    requires IsDigit(c)
    ensures d < 10
  {
    c as int - '0' as int
  }

  function DigitChar(d: nat): (c: char)
    requires d < 10
    ensures IsDigit(c) && DigitValue(c) == d
  {
    ('0' as int + d) as char
  }

  /** The number a string of ASCII digits denotes (leading zeros allowed). */
  function DecimalValue(s: string): nat
    requires AllDigits(s)
    decreases |s|
  {
    if |s| == 0 then 0 else DecimalValue(s[..|s| - 1]) * 10 + DigitValue(s[|s| - 1])
  }

  /** `str(n)`: the shortest decimal numeral of `n`. */
  function NatToString(n: nat): (s: string)
    ensures IsDigits(s)
    ensures DecimalValue(s) == n
    ensures s[0] == '0' ==> n == 0 && |s| == 1
    decreases n
  {
    if n < 10 then [DigitChar(n)]
    else
      var front := NatToString(n / 10);
      var s := front + [DigitChar(n % 10)];
      assert s[..|s| - 1] == front;
      s
  }

  lemma NatToStringInjective(m: nat, n: nat)
    ensures NatToString(m) == NatToString(n) <==> m == n
  {
    if NatToString(m) == NatToString(n) {
      assert m == DecimalValue(NatToString(m));
    }
  }

  // ---------------------------------------------------------------------------
  // str.strip() and the trimming inside int()

  /** The index of the first non-blank character at or after `i` (or `|s|`). */
  function SkipBlanks(b: Blanks, s: string, i: nat): (k: nat)
    requires i <= |s|
    ensures i <= k <= |s|
    ensures forall m | i <= m < k :: IsBlank(b, s[m])
    ensures k == |s| || !IsBlank(b, s[k])
    decreases |s| - i
  {
    if i < |s| && IsBlank(b, s[i]) then SkipBlanks(b, s, i + 1) else i
  }

  /** The index just past the last non-blank character of `s[lo..j]` (or `lo`). */
  function BackBlanks(b: Blanks, s: string, lo: nat, j: nat): (k: nat)
    requires lo <= j <= |s|
    ensures lo <= k <= j
    ensures forall m | k <= m < j :: IsBlank(b, s[m])
    ensures k == lo || !IsBlank(b, s[k - 1])
    decreases j
  {
    if lo < j && IsBlank(b, s[j - 1]) then BackBlanks(b, s, lo, j - 1) else j
  }

  /** The unique slice of `s` that drops every leading and trailing blank and
      begins and ends with a non-blank. */
  function Trim(b: Blanks, s: string): (r: string)
    ensures exists lo, hi | 0 <= lo <= hi <= |s| ::
      && r == s[lo..hi]
      && (forall m | 0 <= m < lo :: IsBlank(b, s[m]))
      && (forall m | hi <= m < |s| :: IsBlank(b, s[m]))
    ensures |r| == 0 || (!IsBlank(b, r[0]) && !IsBlank(b, r[|r| - 1]))
  {
    var lo := SkipBlanks(b, s, 0);
    var hi := BackBlanks(b, s, lo, |s|);
    s[lo..hi]
  }

  /** `s.strip()`: the unique slice of `s` that drops every leading and
      trailing space and begins and ends with a non-space. */
  function Strip(s: string): (r: string)
    ensures exists lo, hi | 0 <= lo <= hi <= |s| ::
      && r == s[lo..hi]
      && (forall m | 0 <= m < lo :: IsSpace(s[m]))
      && (forall m | hi <= m < |s| :: IsSpace(s[m]))
    ensures |r| == 0 || (!IsSpace(r[0]) && !IsSpace(r[|r| - 1]))
  {
    var r := Trim(StripBlanks, s);
    assert |r| == 0 || (!IsBlank(StripBlanks, r[0]) && !IsBlank(StripBlanks, r[|r| - 1]));
    r
  }

  /** A text that neither starts nor ends with a blank is left as it is. */
  lemma {:induction false} TrimEdgeless(b: Blanks, t: string)
    requires |t| == 0 || (!IsBlank(b, t[0]) && !IsBlank(b, t[|t| - 1]))
    ensures Trim(b, t) == t
  {
    var lo := SkipBlanks(b, t, 0);
    assert lo == 0 by {
      if |t| > 0 { assert !IsBlank(b, t[0]); }
    }
    var hi := BackBlanks(b, t, lo, |t|);
    assert hi == |t| by {
      if |t| > 0 { assert !IsBlank(b, t[|t| - 1]); }
    }
    assert t[lo..hi] == t;
  }

  /** `strip()` leaves a text alone that neither starts nor ends with a space. */
  lemma StripEdgeless(t: string)
    requires |t| == 0 || (!IsSpace(t[0]) && !IsSpace(t[|t| - 1]))
    ensures Strip(t) == t
  {
    TrimEdgeless(StripBlanks, t);
  }

  lemma StripIdempotent(s: string)
    ensures Strip(Strip(s)) == Strip(s)
  {
    StripEdgeless(Strip(s));
  }

  /** `int()` finds nothing to skip around an already stripped text, since
      every character it skips is one `strip()` removes. */
  lemma IntTrimOfStripped(s: string)
    ensures Trim(IntBlanks, Strip(s)) == Strip(s)
  {
    TrimEdgeless(IntBlanks, Strip(s));
  }

  // ---------------------------------------------------------------------------
  // str.replace(c, '') and str.count(c)

  function Count(s: string, c: char): (n: nat)
    ensures n <= |s|
  {
    if |s| == 0 then 0 else (if s[0] == c then 1 else 0) + Count(s[1..], c)
  }

  lemma {:induction false} CountConcat(a: string, b: string, c: char)
    ensures Count(a + b, c) == Count(a, c) + Count(b, c)
  {
    if |a| > 0 {
      assert (a + b)[1..] == a[1..] + b;
      CountConcat(a[1..], b, c);
    } else {
      assert a + b == b;
    }
  }

  lemma {:induction false} CountAbsent(s: string, c: char)
    requires c !in s
    ensures Count(s, c) == 0
  {
    if |s| > 0 {
      assert c !in s[1..] by {
        assert forall i | 0 <= i < |s| - 1 :: s[1..][i] == s[i + 1];
      }
      CountAbsent(s[1..], c);
    }
  }

  /** `s.replace(c, '')`: `s` with every `c` removed; `RemoveAllIsConcatSplit`
      shows the rest is kept in order. */
  function RemoveAll(s: string, c: char): (r: string)
    ensures |r| == |s| - Count(s, c)
    ensures forall x :: x in r <==> x in s && x != c
  {
    if |s| == 0 then []
    else
      var rest := RemoveAll(s[1..], c);
      assert forall x :: x in s <==> x == s[0] || x in s[1..];
      if s[0] == c then rest else [s[0]] + rest
  }

  // ---------------------------------------------------------------------------
  // str.split(sep) and sep.join(parts)

  /** `sep.join(parts)`. */
  function Join(parts: seq<string>, sep: char): string
  {
    if |parts| == 0 then []
    else if |parts| == 1 then parts[0]
    else parts[0] + [sep] + Join(parts[1..], sep)
  }

  /** `s.split(sep)`: always at least one piece, one more than there are
      separators, none containing the separator, and joining them back gives `s`. */
  function Split(s: string, sep: char): (parts: seq<string>)
    ensures |parts| == Count(s, sep) + 1
    ensures forall k | 0 <= k < |parts| :: sep !in parts[k]
    ensures Join(parts, sep) == s
  {
    if |s| == 0 then [[]]
    else
      var tail := Split(s[1..], sep);
      if s[0] == sep then
        var parts := [[]] + tail;
        assert parts[1..] == tail;
        assert s == [sep] + s[1..];
        parts
      else
        var parts := [[s[0]] + tail[0]] + tail[1..];
        assert s == [s[0]] + s[1..];
        assert parts[1..] == tail[1..];
        parts
  }

  /** Splitting undoes joining, for pieces that do not contain the separator. */
  lemma {:induction false} SplitJoin(parts: seq<string>, sep: char)
    requires |parts| >= 1
    requires forall k | 0 <= k < |parts| :: sep !in parts[k]
    ensures Split(Join(parts, sep), sep) == parts
    decreases |parts|, |parts[0]|
  {
    if |parts[0]| > 0 {
      var p := parts[0];
      var shorter := [p[1..]] + parts[1..];
      assert shorter[1..] == parts[1..];
      assert Join(parts, sep) == [p[0]] + Join(shorter, sep) by {
        assert p == [p[0]] + p[1..];
      }
      SplitJoin(shorter, sep);
      assert [p[0]] + p[1..] == p;
      assert ([p[0]] + Join(shorter, sep))[1..] == Join(shorter, sep);
    } else if |parts| > 1 {
      assert Join(parts, sep) == [sep] + Join(parts[1..], sep);
      SplitJoin(parts[1..], sep);
      assert ([sep] + Join(parts[1..], sep))[1..] == Join(parts[1..], sep);
      assert parts == [[]] + parts[1..];
    }
  }

  /** `''.join(parts)`. */
  function Concat(parts: seq<string>): string
  {
    if |parts| == 0 then [] else parts[0] + Concat(parts[1..])
  }

  /** `s.replace(c, '')` is `''.join(s.split(c))`: removing every `c` keeps the
      other characters, in their order. */
  lemma {:induction false} RemoveAllIsConcatSplit(s: string, c: char)
    ensures RemoveAll(s, c) == Concat(Split(s, c))
    decreases |s|
  {
    if |s| > 0 {
      var tail := Split(s[1..], c);
      RemoveAllIsConcatSplit(s[1..], c);
      if s[0] == c {
        var parts := [[]] + tail;
        assert Split(s, c) == parts;
        assert parts[1..] == tail;
        assert Concat(parts) == [] + Concat(tail);
      } else {
        var parts := [[s[0]] + tail[0]] + tail[1..];
        assert Split(s, c) == parts;
        assert parts[1..] == tail[1..];
        assert Concat(tail) == tail[0] + Concat(tail[1..]);
        assert Concat(parts) == [s[0]] + (tail[0] + Concat(tail[1..]));
      }
    }
  }

  // ---------------------------------------------------------------------------
  // int(s)

  /** The shape Python's `int()` accepts, after stripping: an optional sign
      followed by at least one ASCII digit. */
  predicate IsIntLiteral(t: string) {
    IsDigits(t) || (|t| > 1 && (t[0] == '+' || t[0] == '-') && IsDigits(t[1..]))
  }

  /** `int(s)` on a decimal literal, after skipping the blanks `int()` skips;
      `None` stands for the `ValueError`. */
  function ParseInt(s: string): (r: Option<int>)
    ensures r.Some? <==> IsIntLiteral(Trim(IntBlanks, s))
    ensures r.Some? && IsDigits(Trim(IntBlanks, s)) ==> r.value == DecimalValue(Trim(IntBlanks, s))
    ensures r.Some? && !IsDigits(Trim(IntBlanks, s)) ==>
      r.value == (if Trim(IntBlanks, s)[0] == '-' then -1 else 1) * DecimalValue(Trim(IntBlanks, s)[1..])
  {
    var t := Trim(IntBlanks, s);
    if IsDigits(t) then Some(DecimalValue(t))
    else if |t| > 1 && t[0] == '-' && IsDigits(t[1..]) then Some(0 - DecimalValue(t[1..]))
    else if |t| > 1 && t[0] == '+' && IsDigits(t[1..]) then Some(DecimalValue(t[1..]))
    else None
  }

  /** Trimming removes exactly the padding around a text that neither starts
      nor ends with a blank, whatever blanks stand on either side. */
  lemma TrimPadded(b: Blanks, lpad: string, core: string, rpad: string)
    requires |core| == 0 || (!IsBlank(b, core[0]) && !IsBlank(b, core[|core| - 1]))
    requires forall i | 0 <= i < |lpad| :: IsBlank(b, lpad[i])
    requires forall i | 0 <= i < |rpad| :: IsBlank(b, rpad[i])
    ensures Trim(b, lpad + core + rpad) == core
  {
    var s := lpad + core + rpad;
    assert forall m | 0 <= m < |lpad| :: IsBlank(b, s[m]);
    assert forall m | |lpad| + |core| <= m < |s| :: IsBlank(b, s[m]);
    var lo := SkipBlanks(b, s, 0);
    if |core| > 0 {
      assert !IsBlank(b, s[|lpad|]);
      assert lo == |lpad|;
      assert !IsBlank(b, s[|lpad| + |core| - 1]);
      assert BackBlanks(b, s, lo, |s|) == |lpad| + |core|;
    } else {
      assert lo == |s|;
    }
    assert s[|lpad|..|lpad| + |core|] == core;
  }

  /** Stripping removes exactly the spaces around a text that neither starts
      nor ends with a space. */
  lemma StripPadded(lpad: string, core: string, rpad: string)
    requires |core| == 0 || (!IsSpace(core[0]) && !IsSpace(core[|core| - 1]))
    requires forall i | 0 <= i < |lpad| :: IsSpace(lpad[i])
    requires forall i | 0 <= i < |rpad| :: IsSpace(rpad[i])
    ensures Strip(lpad + core + rpad) == core
  {
    assert forall i | 0 <= i < |lpad| :: IsBlank(StripBlanks, lpad[i]);
    assert forall i | 0 <= i < |rpad| :: IsBlank(StripBlanks, rpad[i]);
    TrimPadded(StripBlanks, lpad, core, rpad);
  }

  /** `int(str(n)) == n`, with or without blanks `int()` skips before and
      after it, independently on each side. */
  lemma ParseIntOfNatToString(n: nat, lpad: string, rpad: string)
    requires forall i | 0 <= i < |lpad| :: IsIntSpace(lpad[i])
    requires forall i | 0 <= i < |rpad| :: IsIntSpace(rpad[i])
    ensures ParseInt(lpad + NatToString(n) + rpad) == Some(n)
    ensures Strip(NatToString(n)) == NatToString(n)
  {
    var d := NatToString(n);
    assert forall i | 0 <= i < |lpad| :: IsBlank(IntBlanks, lpad[i]);
    assert forall i | 0 <= i < |rpad| :: IsBlank(IntBlanks, rpad[i]);
    TrimPadded(IntBlanks, lpad, d, rpad);
    StripEdgeless(d);
  }

  /** `int()` does not skip the separators U+001C to U+001F that `strip()`
      removes: a count typed with one in front is refused, not read. */
  lemma SeparatorNotSkipped()
    ensures Strip("\U{1C}5") == "5"
    ensures ParseInt("\U{1C}5") == None
  {
    var s := "\U{1C}5";
    assert SkipBlanks(StripBlanks, s, 0) == 1;
    assert BackBlanks(StripBlanks, s, 1, 2) == 2;
    assert SkipBlanks(IntBlanks, s, 0) == 0;
    assert BackBlanks(IntBlanks, s, 0, 2) == 2;
    assert s[1..2] == "5" && s[0..2] == s;
  }
}

=== FILE: validation.dfy ===
/**
 The input check `NetworkLearningTool.start_simulation` performs before it
 launches a run: packet count first, then the address, then the port. The
 first check that fails decides the warning the user sees; nothing else happens.
 */
module Validation {
  import opened Wrappers
  import opened Text

  /** The two radio-button choices. */
  datatype Protocol = TCP | UDP {
    function Name(): string {
      match this
      case TCP => "TCP"
      case UDP => "UDP"
    }
  }

  /** The six entries of the read-only request-type combobox. */
  datatype RequestKind = SynRequest | AckRequest | FinRequest | DataPacket | Broadcast | Multicast {
    function Label(): string {
      match this
      case SynRequest => "SYN Request"
      case AckRequest => "ACK Request"
      case FinRequest => "FIN Request"
      case DataPacket => "Data Packet"
      case Broadcast => "Broadcast"
      case Multicast => "Multicast"
    }
  }

  /** What the form's widgets hold when Start is pressed, unprocessed. */
  datatype Form = Form(ip: string, port: string, protocol: Protocol, kind: RequestKind, count: string)

  /** An accepted request. `ip` and `port` are the stripped texts the user
      typed: the port is never replaced by its parsed value. */
  datatype Request = Request(ip: string, port: string, protocol: Protocol, kind: RequestKind, count: nat)

  /** The warning dialogs of a refused start. */
  datatype Warning = UnreadableCount | CountOutOfRange | BadAddress | PortOutOfRange | UnreadablePort {
    function Message(): string {
      match this
      case UnreadableCount => "Please enter a valid packet count"
      case CountOutOfRange => "Packet count must be between 1 and 1000"
      case BadAddress => "Please enter a valid IP address"
      case PortOutOfRange => "Port must be between 1 and 65535"
      case UnreadablePort => "Please enter a valid port number"
    }
  }

  const MinPackets := 1
  const MaxPackets := 1000
  const MinPort := 1
  const MaxPort := 65535

  /** The "basic validation" of an address: with the dots taken out what is
      left is a non-empty run of digits, and there are exactly four dot-separated
      pieces. Neither octet range nor empty octets are looked at. */
  predicate AddressAccepted(ip: string) {
    IsDigits(RemoveAll(ip, '.')) && |Split(ip, '.')| == 4
  }

  predicate InRange(v: Option<int>, lo: int, hi: int) {
    v.Some? && lo <= v.value <= hi
  }

  /** The checks of `start_simulation`, in the order the source makes them. */
  function Validate(f: Form): (r: Result<Request, Warning>)
    // accepted exactly when every check passes
    ensures r.Success? <==>
      && InRange(ParseInt(f.count), MinPackets, MaxPackets)
      && AddressAccepted(Strip(f.ip))
      && InRange(ParseInt(Strip(f.port)), MinPort, MaxPort)
    // an accepted request carries the stripped texts and the parsed count
    ensures r.Success? ==>
      && r.value == Request(Strip(f.ip), Strip(f.port), f.protocol, f.kind, ParseInt(f.count).value)
      && MinPackets <= r.value.count <= MaxPackets
  {
    var ip := Strip(f.ip);
    var port := Strip(f.port);
    match ParseInt(f.count)
    case None => Failure(UnreadableCount)
    case Some(count) =>
      if count <= 0 || count > MaxPackets then Failure(CountOutOfRange)
      else if !IsDigits(RemoveAll(ip, '.')) || |Split(ip, '.')| != 4 then Failure(BadAddress)
      else
        match ParseInt(port)
        case None => Failure(UnreadablePort)
        case Some(portNumber) =>
          if portNumber < MinPort || portNumber > MaxPort then Failure(PortOutOfRange)
          else Success(Request(ip, port, f.protocol, f.kind, count))
  }

  /** The first failing check, in the order count, address, port, decides
      the warning. */
  lemma FirstFailureDecides(f: Form)
    ensures ParseInt(f.count).None? ==> Validate(f) == Failure(UnreadableCount)
    ensures ParseInt(f.count).Some? && !InRange(ParseInt(f.count), MinPackets, MaxPackets) ==>
      Validate(f) == Failure(CountOutOfRange)
    ensures InRange(ParseInt(f.count), MinPackets, MaxPackets) && !AddressAccepted(Strip(f.ip)) ==>
      Validate(f) == Failure(BadAddress)
    ensures InRange(ParseInt(f.count), MinPackets, MaxPackets) && AddressAccepted(Strip(f.ip)) ==>
      (ParseInt(Strip(f.port)).None? ==> Validate(f) == Failure(UnreadablePort))
    ensures InRange(ParseInt(f.count), MinPackets, MaxPackets) && AddressAccepted(Strip(f.ip)) ==>
      (ParseInt(Strip(f.port)).Some? && !InRange(ParseInt(Strip(f.port)), MinPort, MaxPort) ==>
         Validate(f) == Failure(PortOutOfRange))
  {
  }

  /** Every character is a digit or a dot. */
  predicate DigitsAndDots(s: string) {
    forall i | 0 <= i < |s| :: s[i] == '.' || IsDigit(s[i])
  }

  /** The address rule in plain terms: exactly three dots, nothing but digits
      and dots, and at least one digit. */
  lemma AddressRule(ip: string)
    ensures AddressAccepted(ip) <==>
      Count(ip, '.') == 3 && DigitsAndDots(ip) && exists i | 0 <= i < |ip| :: IsDigit(ip[i])
  {
    var rest := RemoveAll(ip, '.');
    if IsDigits(rest) {
      assert rest[0] in rest;
      forall i | 0 <= i < |ip| ensures ip[i] == '.' || IsDigit(ip[i]) {
        if ip[i] != '.' {
          assert ip[i] in rest;
          var j :| 0 <= j < |rest| && rest[j] == ip[i];
        }
      }
    }
    if DigitsAndDots(ip) && exists i | 0 <= i < |ip| :: IsDigit(ip[i]) {
      var i :| 0 <= i < |ip| && IsDigit(ip[i]);
      assert ip[i] in rest;
      forall j | 0 <= j < |rest| ensures IsDigit(rest[j]) {
        assert rest[j] in ip;
      }
    }
  }

  lemma DigitsAndDotsConcat(a: string, b: string)
    requires DigitsAndDots(a) && DigitsAndDots(b)
    ensures DigitsAndDots(a + b)
  {
    assert forall i | |a| <= i < |a + b| :: (a + b)[i] == b[i - |a|];
  }

  /** One more dotted piece of digits keeps the shape and adds one dot. */
  lemma AppendOctet(prefix: string, octet: string)
    requires DigitsAndDots(prefix) && IsDigits(octet)
    ensures DigitsAndDots(prefix + "." + octet)
    ensures Count(prefix + "." + octet, '.') == Count(prefix, '.') + 1
  {
    DigitsAndDotsConcat(prefix, ".");
    DigitsAndDotsConcat(prefix + ".", octet);
    CountConcat(prefix, ".", '.');
    CountConcat(prefix + ".", octet, '.');
    assert '.' !in octet by {
      forall i | 0 <= i < |octet| ensures octet[i] != '.' { assert IsDigit(octet[i]); }
    }
    CountAbsent(octet, '.');
  }

  /** A trailing dot keeps the shape and adds one dot. */
  lemma AppendDot(prefix: string)
    requires DigitsAndDots(prefix)
    ensures DigitsAndDots(prefix + ".")
    ensures Count(prefix + ".", '.') == Count(prefix, '.') + 1
  {
    DigitsAndDotsConcat(prefix, ".");
    CountConcat(prefix, ".", '.');
  }

  /** A run of digits on its own: the shape holds and there is no dot. */
  lemma FirstOctet(p: string)
    requires IsDigits(p)
    ensures DigitsAndDots(p) && Count(p, '.') == 0
  {
    assert '.' !in p by {
      forall i | 0 <= i < |p| ensures p[i] != '.' { assert IsDigit(p[i]); }
    }
    CountAbsent(p, '.');
  }

  /** Three dots around three runs of digits pass wherever the empty octet
      sits: empty octets are not looked at. */
  lemma EmptyOctetsAccepted(p: string, q: string, r: string)
    requires IsDigits(p) && IsDigits(q) && IsDigits(r)
    ensures AddressAccepted("." + p + "." + q + "." + r)
    ensures AddressAccepted(p + "." + "." + q + "." + r)
    ensures AddressAccepted(p + "." + q + "." + "." + r)
    ensures AddressAccepted(p + "." + q + "." + r + ".")
  {
    EmptyFirstOctet(p, q, r);
    EmptySecondOctet(p, q, r);
    EmptyThirdOctet(p, q, r);
    EmptyFourthOctet(p, q, r);
  }

  lemma EmptyFirstOctet(p: string, q: string, r: string)
    requires IsDigits(p) && IsDigits(q) && IsDigits(r)
    ensures AddressAccepted("." + p + "." + q + "." + r)
  {
    assert DigitsAndDots("") && Count("", '.') == 0;
    AppendOctet("", p);
    AppendOctet("" + "." + p, q);
    AppendOctet("" + "." + p + "." + q, r);
    var ip := "." + p + "." + q + "." + r;
    assert "" + "." + p + "." + q + "." + r == ip;
    assert ip[1] == p[0];
    AddressRule(ip);
  }

  lemma EmptySecondOctet(p: string, q: string, r: string)
    requires IsDigits(p) && IsDigits(q) && IsDigits(r)
    ensures AddressAccepted(p + "." + "." + q + "." + r)
  {
    FirstOctet(p);
    AppendDot(p);
    AppendOctet(p + ".", q);
    AppendOctet(p + "." + "." + q, r);
    var ip := p + "." + "." + q + "." + r;
    assert ip[0] == p[0];
    AddressRule(ip);
  }

  lemma EmptyThirdOctet(p: string, q: string, r: string)
    requires IsDigits(p) && IsDigits(q) && IsDigits(r)
    ensures AddressAccepted(p + "." + q + "." + "." + r)
  {
    FirstOctet(p);
    AppendOctet(p, q);
    AppendDot(p + "." + q);
    AppendOctet(p + "." + q + ".", r);
    var ip := p + "." + q + "." + "." + r;
    assert ip[0] == p[0];
    AddressRule(ip);
  }

  lemma EmptyFourthOctet(p: string, q: string, r: string)
    requires IsDigits(p) && IsDigits(q) && IsDigits(r)
    ensures AddressAccepted(p + "." + q + "." + r + ".")
  {
    FirstOctet(p);
    AppendOctet(p, q);
    AppendOctet(p + "." + q, r);
    AppendDot(p + "." + q + "." + r);
    var ip := p + "." + q + "." + r + ".";
    assert ip[0] == p[0];
    AddressRule(ip);
  }

  /** For instance "1..2.3" and "1.2.3.". */
  lemma EmptyOctetAccepted()
    ensures AddressAccepted("1..2.3") && AddressAccepted("1.2.3.")
  {
    EmptyOctetsAccepted("1", "2", "3");
    assert "1" + "." + "." + "2" + "." + "3" == "1..2.3";
    assert "1" + "." + "2" + "." + "3" + "." == "1.2.3.";
  }

  /** Any four runs of digits joined by dots pass, however long: no octet is
      compared with 255 and leading zeros are not looked at. */
  lemma LargeOctetAccepted(p: string, q: string, r: string, t: string)
    requires IsDigits(p) && IsDigits(q) && IsDigits(r) && IsDigits(t)
    ensures AddressAccepted(p + "." + q + "." + r + "." + t)
  {
    FirstOctet(p);
    AppendOctet(p, q);
    AppendOctet(p + "." + q, r);
    var front := p + "." + q + "." + r;
    AppendOctet(front, t);
    var ip := front + "." + t;
    assert ip[0] == p[0];
    AddressRule(ip);
  }

  /** For instance "999.256.300.1". */
  lemma LargeOctetExample()
    ensures AddressAccepted("999.256.300.1")
  {
    LargeOctetAccepted("999", "256", "300", "1");
    assert "999" + "." + "256" + "." + "300" + "." + "1" == "999.256.300.1";
  }

  /** Three octets, no digits at all, or a letter are refused. */
  lemma MalformedAddressesRefused()
    ensures !AddressAccepted("1.2.3")
    ensures !AddressAccepted("...")
    ensures !AddressAccepted("1.2.3.a")
  {
    AddressRule("1.2.3");
    AddressRule("...");
    AddressRule("1.2.3.a");
    assert 'a' in "1.2.3.a";
  }

  /** Once both numbers read and the address passes, only the two range
      checks remain, count first. */
  lemma NumbersDecide(f: Form, count: int, port: int)
    requires ParseInt(f.count) == Some(count) && ParseInt(Strip(f.port)) == Some(port)
    requires AddressAccepted(Strip(f.ip))
    ensures Validate(f) ==
      if !(MinPackets <= count <= MaxPackets) then Failure(CountOutOfRange)
      else if !(MinPort <= port <= MaxPort) then Failure(PortOutOfRange)
      else Success(Request(Strip(f.ip), Strip(f.port), f.protocol, f.kind, count))
  {
    var ip := Strip(f.ip);
    assert IsDigits(RemoveAll(ip, '.')) && |Split(ip, '.')| == 4;
  }

  /** The range checks are inclusive at both ends: counts 1 and 1000 and
      ports 1 and 65535 are accepted, 0, 1001 and 65536 are not. */
  lemma RangeBoundaries(f: Form, count: nat, port: nat)
    requires f.count == NatToString(count) && f.port == NatToString(port)
    requires AddressAccepted(Strip(f.ip))
    ensures Validate(f).Success? <==> 1 <= count <= 1000 && 1 <= port <= 65535
    ensures count == 0 || count == 1001 ==> Validate(f) == Failure(CountOutOfRange)
    ensures 1 <= count <= 1000 && (port == 0 || port == 65536) ==> Validate(f) == Failure(PortOutOfRange)
  {
    NumeralParses(count);
    NumeralParses(port);
    NumbersDecide(f, count, port);
  }

  /** A form whose fields are already in canonical shape is accepted exactly
      as typed. */
  lemma CanonicalFormAccepted(f: Form, count: nat, port: nat)
    requires f.count == NatToString(count) && f.port == NatToString(port)
    requires Strip(f.ip) == f.ip && AddressAccepted(f.ip)
    requires 1 <= count <= 1000 && 1 <= port <= 65535
    ensures Validate(f) == Success(Request(f.ip, f.port, f.protocol, f.kind, count))
  {
    NumeralParses(count);
    NumeralParses(port);
    NumbersDecide(f, count, port);
  }

  lemma NumeralParses(n: nat)
    ensures ParseInt(NatToString(n)) == Some(n)
    ensures Strip(NatToString(n)) == NatToString(n)
    ensures ParseInt(Strip(NatToString(n))) == Some(n)
  {
    ParseIntOfNatToString(n, "", "");
    assert "" + NatToString(n) + "" == NatToString(n);
  }

  /** The count reaches `int()` unstripped, and `int()` does not skip the
      separators U+001C to U+001F: such a count is refused as unreadable. */
  lemma SeparatedCountRefused(f: Form)
    requires f.count == "\U{1C}5"
    ensures Validate(f) == Failure(UnreadableCount)
  {
    SeparatorNotSkipped();
  }
}

=== FILE: wrappers.dfy ===
/** Failure-carrying datatypes used across the model. */
module Wrappers {

  /** A value that may be missing, like Python's `None`. */
  datatype Option<+T> = None | Some(value: T)

  /** Either an accepted value or the reason it was refused. */
  datatype Result<+R, +E> = Success(value: R) | Failure(error: E)
}
